=== FILE: README.md ===
# Tenant onboarding and tier-based user provisioning, in Dafny

This project models the two request handlers of a multi-tenant SaaS back end:

- **intake** (`src/onboarding.ts`): builds an onboarding record `{tenantId, userId, tier}`
  from a POST body, stores it in the onboarding table, starts the onboarding state
  machine with the same record and echoes it with status 200;
- **provisioning** (`src/user-management.ts`): the state machine's single task. It
  branches on the record's tier:
  - `"free"`: admit the user into the shared free-tier user pool, then write the
    record with `userPoolId` set to that pool;
  - `"pro"` / `"business"`: query the user-management table by tenant. If the tenant
    has any record (any tier, any user), return those records. Otherwise create a
    pool named `tenantId + tier + "UserPool"`, write the record with the new pool id,
    fire the admission into the new pool without waiting, and return `[]`;
  - any other tier: do nothing and return `{statusCode: 200, body: "Successful Added"}`.

The cloud services are abstract. `Cloud.World` is an immutable value holding:

- both tables, keyed by (tenantId, userId), last write wins;
- the created pools;
- the admitted (pool, username) pairs;
- the started executions;
- a trace of every call issued.

Every handler is a pure function from a world to a result and a new world. A
`Cloud.Faults` value, passed in by the caller, says which calls fail in that run and
which id the identity service assigns to a new pool. That is how each error path is
stated. JavaScript values are `Cloud.Value`. A field that is missing or `undefined`
reads as `Undefined`, and serialisation drops it (`Cloud.Strip`). The document store
refuses an undefined item and any item whose `tenantId` or `userId` is not a
non-empty string (the tables' key schema, lib/user-management-stack.ts:16-21 and
lib/onboarding-stack.ts:20-23). The
identity service refuses a create-user request whose username is not a non-empty
string or whose attribute values are not strings, null or undefined (the SDK's
parameter validation),
and a username that is already in the pool.

Files: `cloud.dfy` (world and services), `user_management.dfy` and
`user_management_properties.dfy` (provisioning), `onboarding.dfy` and
`onboarding_properties.dfy` (intake), `workflow.dfy` (intake followed by the
execution it starts, and the sign-up scenarios).

What the code does that a reader may not expect:

- Intake validates nothing. The tier is not checked and no field is required.
- For a paid tier the record is written before the admission, and the admission is
  not awaited.
- Pool names keep the tier's case: `acme` on `pro` gets `acmeproUserPool`, not
  `acmeProUserPool`.
- A request with an unknown tier is still stored in the onboarding table. Only the
  provisioning side ignores it.
- Re-running a successful free-tier request is not idempotent: the shared pool
  refuses the same username again, so the rerun throws.
- A later paid sign-up for a known tenant never admits the new user into any pool.

## Model

| member | source | states |
|---|---|---|
| Cloud.Strip | src/onboarding.ts:29 | serialisation keeps exactly the fields whose value is not undefined, with their values, and leaves no undefined behind |
| Cloud.KeyOf | lib/user-management-stack.ts:17-18 | an item has a key exactly when tenantId and userId are non-empty strings, and the key carries those two strings |
| Cloud.PutItem | src/user-management.ts:126-133 | a write succeeds exactly when the item is defined, has a key and the store does not fail; success stores the serialised item under its key (last write wins) and touches no other table; failure changes nothing but the trace |
| Cloud.QueryTenant | src/user-management.ts:20-29 | the query filters on the tenant id only; it fails on a non-string or empty tenant or a store failure, otherwise it returns exactly that tenant's records of any tier and user |
| Cloud.CreatePoolNamed | src/user-management.ts:162-170 | a successful creation appends exactly one pool with the given name and the assigned id and returns the id; a failure is rethrown and creates nothing |
| Cloud.AdminCreateUser | src/user-management.ts:87-89 | an admission succeeds exactly when the username is a non-empty string, every attribute value is a string (or absent), the username is not yet in that pool and the service does not fail; it then adds exactly that (pool, username) pair |
| Cloud.StartWorkflow | src/onboarding.ts:26-31 | a successful start appends exactly the given input to the executions; a failure starts nothing |
| UserManagement.FreeTierRequest | src/user-management.ts:61-90 | the free-tier request targets the shared pool with username = userId and exactly two attributes, first `name` = userId, then `custom:tenantId` = tenantId, whatever those values are, with the fixed temporary password and `SUPPRESS` |
| UserManagement.UserPoolRequest | src/user-management.ts:92-124 | the tenant-pool request has the same shape, attribute names included, for the given pool id |
| UserManagement.AdmissionRequestsDifferOnlyInPool | src/user-management.ts:61-124 | the two admission helpers build equal requests for equal pools; changing the pool id is the only difference |
| UserManagement.AddUserToFreeTierUserPool | src/user-management.ts:61-90 | the shared-pool admission succeeds exactly when the user id is a non-empty string, the tenant id is a string or absent, the service is up and the user is not yet in the shared pool; only that admission is added, and no record or pool changes |
| UserManagement.AddUserToUserPool | src/user-management.ts:92-124 | the same for the given tenant pool |
| UserManagement.PutDataToDynamoDB | src/user-management.ts:126-133 | the user-management write succeeds exactly when the serialised record has a key and the store is up; it then sits under that key; a failure changes no record; the onboarding table, pools and admissions never change |
| UserManagement.CreateUserPool | src/user-management.ts:135-171 | a successful creation appends exactly one pool named tenant + tier + `UserPool` with the returned id; a failure creates none; records and admissions are untouched |
| UserManagement.PoolName | src/user-management.ts:139 | the pool name is the tenant id, then the tier unchanged in case, then `UserPool` |
| UserManagement.PoolNameInjective | src/user-management.ts:139 | for the paid tiers the name determines both tenant and tier, so distinct (tenant, tier) pairs get distinct names |
| UserManagement.Handle | src/user-management.ts:8-59 | nothing is ever removed from any table or pool list; an unknown tier returns the status reply and changes nothing; a successful free run returns the same status reply; a successful paid run returns a record list; the onboarding side is untouched |
| UserManagementProperties.Finalised | src/user-management.ts:15-18 | the written record is the event with userPoolId set, every other defined field kept, and no field the event does not define |
| UserManagementProperties.FreeTierAdmitsThenRecords | src/user-management.ts:11-18 | free tier succeeds exactly when the admission into the shared pool and the write both succeed; then the world differs by that one admission and that one record, and the trace is admission then write, with no query and no pool |
| UserManagementProperties.FreeTierAdmissionFailureWritesNothing | src/user-management.ts:12-15 | a refused free-tier admission is rethrown unchanged and nothing but that call happens |
| UserManagementProperties.FreeTierWriteFailureKeepsAdmission | src/user-management.ts:12-18 | a failed free-tier write is rethrown unchanged: a validation error for a record without a valid key, otherwise the store's error; no record is stored, and the admission made before it stays |
| UserManagementProperties.FreeTierRerunThrows | src/user-management.ts:11-18 | re-running a successful free-tier event throws (the username already exists when the service is up) and writes nothing |
| UserManagementProperties.PaidTierExistingTenantReturnsRecords | src/user-management.ts:19-31 | a paid run for a tenant with any record returns exactly the tenant's records and changes nothing but the trace |
| UserManagementProperties.PaidTierQueryFailureChangesNothing | src/user-management.ts:28-46 | a failed tenant query is rethrown unchanged (a validation error for a tenant id that is not a non-empty string, otherwise the store's error) and nothing but the query happened: no pool, no write, no admission |
| UserManagementProperties.PaidTierNewTenantCreatesPool | src/user-management.ts:32-41 | a paid run for a new tenant without failures returns `[]`, appends exactly one pool named tenant + tier + `UserPool`, writes exactly one record with the new pool id, admits at most that user into that pool, and issues query, create, write, admission in that order |
| UserManagementProperties.PaidTierCreateFailureWritesNothing | src/user-management.ts:33-46 | a failed pool creation is rethrown and leaves table, pools and admissions unchanged |
| UserManagementProperties.PaidTierWriteFailureOrphansPool | src/user-management.ts:33-46 | a write failing after the creation is rethrown unchanged: a validation error for a record without a valid key, otherwise the store's error; the new pool stays with no record and no admission |
| UserManagementProperties.OrphanedPoolNotReused | src/user-management.ts:20-41 | after such a failure the tenant still has no record, so re-running the request creates a second pool with the same name |
| UserManagementProperties.HandleWritesOneRecord | src/user-management.ts:11-41 | a run writes at most one record, the event finalised with the pool the tier decision chose |
| UserManagementProperties.HandleKeepsRecordsProvisioned | src/user-management.ts:8-59 | every record in the user-management table keeps naming its pool: the shared pool for free, for a paid tier an existing pool named after the record's tenant and tier |
| UserManagementProperties.HandleKeepsTableConsistent | src/user-management.ts:126-133 | every record stays under its own key with no undefined field |
| UserManagementProperties.SuccessfulRunRegistersTenant | src/user-management.ts:11-41 | after a successful free or paid run the tenant has at least one record |
| UserManagementProperties.TenantStaysRegistered | src/user-management.ts:8-59 | once a tenant has a record it keeps one through any sequence of later runs |
| UserManagementProperties.KnownTenantGetsNoPool | src/user-management.ts:20-31 | a paid run for a tenant with records creates no pool, writes nothing and admits nobody, for any user and either paid tier |
| UserManagementProperties.NoSecondPoolAfterSuccess | src/user-management.ts:20-41 | after a successful run for a tenant (any tier) and any later runs, a paid run for that tenant creates no pool |
| Onboarding.NewItem | src/onboarding.ts:8-19 | a record exists only for POST and has exactly the keys tenantId, userId, tier, copied from the body object; a body that is not JSON or is null throws |
| Onboarding.PutDataToDynamoDB | src/onboarding.ts:46-53 | an undefined record is refused; the onboarding write succeeds exactly when the serialised record has a key and the store is up, and it then sits under that key; a failure changes no record; the user-management table and executions never change |
| Onboarding.Handle | src/onboarding.ts:7-44 | a success requires POST with an object body, returns status 200 and echoes exactly the input of the one execution it started; the user-management side is untouched |
| OnboardingProperties.IntakeRecord | src/onboarding.ts:14-18 | the stored record holds a field exactly when it is one of the three and the body defines it, with the body's value |
| OnboardingProperties.RecordCopiesThreeFields | src/onboarding.ts:14-18 | any other body field is dropped |
| OnboardingProperties.IntakeStoresThenStarts | src/onboarding.ts:21-39 | intake succeeds exactly when the record has a key and neither call fails; then the record is stored, the workflow gets that same record after the write, and the reply echoes it |
| OnboardingProperties.NonPostStoresNothing | src/onboarding.ts:8-21 | any other method hands the store an undefined item, which fails; nothing is stored and no workflow starts |
| OnboardingProperties.UnreadableBodyThrowsFirst | src/onboarding.ts:11-13 | a body that is not JSON or is null throws before any call |
| OnboardingProperties.StartOnlyAfterWrite | src/onboarding.ts:21-43 | a run issues nothing, the write alone, or the write then the start with the stored record; a failed write is rethrown unchanged and starts nothing |
| OnboardingProperties.StartFailureKeepsRecord | src/onboarding.ts:21-43 | a failed start is rethrown; the stored record stays and no execution exists |
| Workflow.Execute | lib/onboarding-stack.ts:69-80 | the state machine's one task hands its input to provisioning: nothing is removed, the onboarding side is untouched, and a successful free run adds exactly the finalised record's key |
| Workflow.Onboard | lib/onboarding-stack.ts:69-80 | provisioning runs exactly when intake succeeded, and the caller's reply is status 200 |
| Workflow.ReplyIgnoresProvisioning | src/onboarding.ts:26-39 | the reply does not depend on how provisioning goes |
| Workflow.FreeTierSignUp | src/user-management.ts:11-18 | a free sign-up stores `{tenantId, userId, tier}` in the onboarding table and the same record plus the shared pool id in the user-management table, admits the user into the shared pool and creates no pool; extra body fields are dropped |
| Workflow.SignUpStartsWorkflow | src/onboarding.ts:11-31 | a well-formed sign-up without intake failure starts an execution on exactly its record |
| Workflow.FirstPaidSignUp | src/user-management.ts:33-41 | the first paid sign-up of a tenant creates pool tenant + tier + `UserPool` and records the user with its id |
| Workflow.LaterPaidSignUp | src/user-management.ts:20-31 | a later paid sign-up of a tenant with records returns them, creates no pool, writes nothing and admits the new user nowhere |
| Workflow.TwoPaidSignUps | src/user-management.ts:20-41 | two sequential paid sign-ups for one tenant: the second returns the first user's record and no second pool exists |
| Workflow.UnknownTierSignUp | src/user-management.ts:47-54 | an unknown tier is still stored by intake, then provisioning replies with the status object and changes nothing |
| Workflow.PoolNameKeepsCase | src/user-management.ts:139 | tenant `acme` on tier `pro` gets `acmeproUserPool`, not `acmeProUserPool` |

## Left out

- Concurrency: the handlers run one after another. Two first requests for a new
  tenant racing through the query before either writes are not modelled. The code
  has no guard against that race, so the "no second pool" results hold only for
  sequential runs whose query sees the earlier write (see `Cloud.QueryTenant`
  below). Even sequentially, a paid run whose write fails after the
  pool was created leaves that pool orphaned, and a rerun creates a second pool with
  the same name (`UserManagementProperties.OrphanedPoolNotReused`).
- Asynchrony of the admission that the paid branch does not await. It is one call in
  the trace, and its failure does not reach the result. It may also never complete
  before the runtime freezes; the model treats that like a failure.
- Query ordering and pagination. The query result is a set. DynamoDB returns
  sort-key order and at most one page, and neither is modelled.
- Pool configuration (src/user-management.ts:140-160): case-insensitive usernames, no
  auto-verified attributes, the tenantId schema attribute. Only the name is kept, so
  the shared and tenant pools compare usernames exactly.
- Environment variables (table names, shared pool id, state machine ARN). The shared
  pool id is a parameter. The two tables are two fields of the world.
- JSON text. `JSON.parse` results are the `Onboarding.Body` cases, and the echoed
  body is the record rather than its JSON string. Numbers are integers.
- Logging, the execution ARN read back by intake, and the SDK client objects.
- The deployment stacks (`lib/*.ts`, `bin/saas.ts`) and the billing handler
  (`src/billing.ts`), which hold no decision logic. Only two facts are taken from
  `lib`: the tables' key schema (lib/user-management-stack.ts:17-18, `Cloud.KeyOf`)
  and the state machine of one task that passes its input to provisioning
  (lib/onboarding-stack.ts:69-80, `Workflow.Execute` and `Workflow.Onboard`). The
  rest of the wiring is left out.
- Cloud.CreatePoolNamed, Cloud.PutItem, Cloud.AdminCreateUser: a reported failure is
  assumed to have had no effect. A call cut off by the function's 10-second timeout
  (lib/user-management-stack.ts:40) or whose response is lost may have taken effect
  and still surface as an error, and an SDK retry after a lost response may create a
  second pool of the same name in a run that reports success. Retries and timeouts
  are not modelled, so `PaidTierCreateFailureWritesNothing` (no pool),
  `CreateUserPool` (exactly one pool) and `PaidTierWriteFailureOrphansPool` (no
  admission) rest on this assumption.
- Cloud.QueryTenant: the query is modelled as a strongly consistent read of the
  table as it is now. The source sets no `ConsistentRead`, so DynamoDB serves an
  eventually consistent read that can miss a record written moments earlier. In that
  case a second paid sign-up for the tenant finds nothing and creates a second pool
  of the same name. `KnownTenantGetsNoPool`, `NoSecondPoolAfterSuccess`,
  `LaterPaidSignUp` and `TwoPaidSignUps` assume the later query sees the earlier write.
- Cloud.AdminCreateUser: does not check that the target pool exists. The free tier
  targets the shared pool created at deployment, and the paid tier targets the pool
  it just created.
- UserManagementProperties.PaidTierNewTenantCreatesPool: states only that the admission adds at
  most the new user to the new pool, because whether the un-awaited call succeeds is
  left to the fault oracle.

=== FILE: cloud.dfy ===
/** The managed services both handlers talk to — the document store, the identity
    service and the workflow engine — as pure functions over one immutable World.
    Every call is appended to the world's effect trace whether or not it succeeds;
    which calls fail, and which id the identity service hands out, is decided by a
    Faults oracle passed in by the caller. */
module Cloud {

  /** A JavaScript value as the handlers see it. Only strings are inspected by the
      code; other JSON values are carried along unchanged. */
  datatype Value = Str(s: string) | Num(n: int) | Bool(b: bool) | Null | Composite | Undefined

  /** A JavaScript object: field name to value. */
  type Item = map<string, Value>

  datatype Option<T> = None | Some(value: T)

  datatype Result<T> = Ok(value: T) | Err(error: Error)

  const TenantField := "tenantId"
  const UserField := "userId"
  const TierField := "tier"
  const PoolIdField := "userPoolId"

  /** Property read: a missing field reads as `undefined`. */
  function Get(item: Item, field: string): Value {
    if field in item then item[field] else Undefined
  }

  /** What survives serialisation (JSON.stringify, the document client's
      marshalling): every field except those holding `undefined`. */
  function Strip(item: Item): (r: Item)
    ensures forall f :: f in r <==> f in item && item[f] != Undefined
    ensures forall f :: f in r ==> r[f] == item[f]
    ensures Undefined !in r.Values
  {
    map f | f in item && item[f] != Undefined :: item[f]
  }

  /** Primary key of both tables: partition key tenantId, sort key userId. */
  datatype Key = Key(tenantId: string, userId: string)

  /** The key of an item, when both key attributes are non-empty strings; the
      store rejects any other item. */
  function KeyOf(item: Item): (k: Option<Key>)
    ensures k.Some? <==> Get(item, TenantField).Str? && Get(item, TenantField).s != ""
                         && Get(item, UserField).Str? && Get(item, UserField).s != ""
    ensures k.Some? ==> Get(item, TenantField) == Str(k.value.tenantId)
                        && Get(item, UserField) == Str(k.value.userId)
  {
    match (Get(item, TenantField), Get(item, UserField))
    case (Str(t), Str(u)) => if t != "" && u != "" then Some(Key(t, u)) else None
    case _ => None
  }

  /** A table: last write wins per key. */
  type Store = map<Key, Item>

  /** Every stored item sits under its own key and holds no `undefined`. */
  ghost predicate Consistent(store: Store) {
    forall k :: k in store ==> KeyOf(store[k]) == Some(k) && Undefined !in store[k].Values
  }

  /** All items of one tenant (a query on the partition key alone). */
  function TenantRecords(store: Store, tenant: string): (r: set<Item>)
    ensures forall k :: k in store && k.tenantId == tenant ==> store[k] in r
    ensures forall i :: i in r ==> exists k :: k in store && k.tenantId == tenant && store[k] == i
  {
    set k | k in store && k.tenantId == tenant :: store[k]
  }

  datatype Table = OnboardingTable | UserManagementTable

  /** A user pool of the identity service; the id is assigned by the service. */
  datatype Pool = Pool(name: string, id: string)

  datatype Attribute = Attribute(name: string, value: Value)

  /** The identity service's create-user request. */
  datatype CreateUserRequest = CreateUserRequest(
    userPoolId: string,
    username: Value,
    temporaryPassword: string,
    attributes: seq<Attribute>,
    messageAction: string)

  /** A user admitted into a pool. */
  datatype Admission = Admission(poolId: string, username: string)

  datatype Call = CreateUserCall | QueryCall | CreatePoolCall | PutCall | StartExecutionCall

  /** One call issued by a handler, with its payload. */
  datatype Effect =
    | CreateUser(request: CreateUserRequest)
    | Query(table: Table, tenantId: Value)
    | CreatePool(name: string)
    | Put(into: Table, item: Option<Item>)
    | StartExecution(input: Item)

  datatype Error =
    | ServiceError(call: Call)     // the service failed the call
    | ValidationError(call: Call)  // the request was malformed for the service
    | UsernameExists               // the username is already in the pool
    | SyntaxError                  // the request body is not JSON
    | TypeError                    // a property was read from null

  /** The environment's answers for one handler run. */
  datatype Faults = Faults(failing: set<Call>, assignedPoolId: string)

  datatype World = World(
    onboardingTable: Store,
    userTable: Store,
    pools: seq<Pool>,
    admitted: set<Admission>,
    executions: seq<Item>,
    trace: seq<Effect>)

  datatype Step<T> = Step(result: Result<T>, world: World)

  function TableOf(w: World, table: Table): Store {
    match table
    case OnboardingTable => w.onboardingTable
    case UserManagementTable => w.userTable
  }

  function WithTable(w: World, table: Table, store: Store): World {
    match table
    case OnboardingTable => w.(onboardingTable := store)
    case UserManagementTable => w.(userTable := store)
  }

  /** Nothing is ever removed: no handler deletes a record, a pool, an admission,
      an execution or a trace entry. */
  ghost predicate Grows(w: World, w': World) {
    && w.onboardingTable.Keys <= w'.onboardingTable.Keys
    && w.userTable.Keys <= w'.userTable.Keys
    && w.pools <= w'.pools
    && w.admitted <= w'.admitted
    && w.executions <= w'.executions
    && w.trace <= w'.trace
  }

  /** Document-store put: stores the serialised item under its key. */
  function PutItem(w: World, faults: Faults, table: Table, item: Option<Item>): (r: Step<()>)
    ensures r.result.Ok? <==> item.Some? && KeyOf(Strip(item.value)).Some? && PutCall !in faults.failing
    ensures r.result.Err? ==> r.world == w.(trace := w.trace + [Put(table, item)])
    ensures r.result.Ok? ==>
      r.world == WithTable(w, table, TableOf(w, table)[KeyOf(Strip(item.value)).value := Strip(item.value)])
                 .(trace := w.trace + [Put(table, item)])
  {
    var w' := w.(trace := w.trace + [Put(table, item)]);
    if item.None? || KeyOf(Strip(item.value)).None? then Step(Err(ValidationError(PutCall)), w')
    else if PutCall in faults.failing then Step(Err(ServiceError(PutCall)), w')
    else
      var stored := Strip(item.value);
      Step(Ok(()), WithTable(w', table, TableOf(w, table)[KeyOf(stored).value := stored]))
  }

  /** Document-store query on the partition key. */
  function QueryTenant(w: World, faults: Faults, table: Table, tenantId: Value): (r: Step<set<Item>>)
    ensures r.world == w.(trace := w.trace + [Query(table, tenantId)])
    ensures r.result.Ok? <==> tenantId.Str? && tenantId.s != "" && QueryCall !in faults.failing
    ensures r.result.Ok? ==> r.result.value == TenantRecords(TableOf(w, table), tenantId.s)
  {
    var w' := w.(trace := w.trace + [Query(table, tenantId)]);
    if !(tenantId.Str? && tenantId.s != "") then Step(Err(ValidationError(QueryCall)), w')
    else if QueryCall in faults.failing then Step(Err(ServiceError(QueryCall)), w')
    else Step(Ok(TenantRecords(TableOf(w, table), tenantId.s)), w')
  }

  /** Identity service: create a pool; the service assigns its id. */
  function CreatePoolNamed(w: World, faults: Faults, name: string): (r: Step<string>)
    ensures r.result.Ok? <==> CreatePoolCall !in faults.failing
    ensures r.result.Err? ==> r.world == w.(trace := w.trace + [CreatePool(name)])
    ensures r.result.Ok? ==>
      && r.result.value == faults.assignedPoolId
      && r.world == w.(pools := w.pools + [Pool(name, faults.assignedPoolId)],
                       trace := w.trace + [CreatePool(name)])
  {
    var w' := w.(trace := w.trace + [CreatePool(name)]);
    if CreatePoolCall in faults.failing then Step(Err(ServiceError(CreatePoolCall)), w')
    else Step(Ok(faults.assignedPoolId), w'.(pools := w.pools + [Pool(name, faults.assignedPoolId)]))
  }

  /** A string attribute value; null and undefined count as absent. */
  predicate AcceptableAttributeValue(v: Value) {
    v.Str? || v.Null? || v.Undefined?
  }

  /** The SDK's parameter validation of a create-user request, done before anything
      is sent: a non-empty string username and string attribute values. */
  predicate WellFormedCreateUser(request: CreateUserRequest) {
    && request.username.Str? && request.username.s != ""
    && forall i :: 0 <= i < |request.attributes| ==> AcceptableAttributeValue(request.attributes[i].value)
  }

  /** Identity service: create a user in a pool. The request is refused when it is
      malformed or the username is already taken in that pool. */
  function AdminCreateUser(w: World, faults: Faults, request: CreateUserRequest): (r: Step<()>)
    ensures r.result.Ok? <==>
      && WellFormedCreateUser(request)
      && CreateUserCall !in faults.failing
      && Admission(request.userPoolId, request.username.s) !in w.admitted
    ensures r.result.Err? ==> r.world == w.(trace := w.trace + [CreateUser(request)])
    ensures r.result.Ok? ==>
      r.world == w.(admitted := w.admitted + {Admission(request.userPoolId, request.username.s)},
                    trace := w.trace + [CreateUser(request)])
  {
    var w' := w.(trace := w.trace + [CreateUser(request)]);
    if !WellFormedCreateUser(request) then Step(Err(ValidationError(CreateUserCall)), w')
    else if CreateUserCall in faults.failing then Step(Err(ServiceError(CreateUserCall)), w')
    else if Admission(request.userPoolId, request.username.s) in w.admitted then Step(Err(UsernameExists), w')
    else Step(Ok(()), w'.(admitted := w.admitted + {Admission(request.userPoolId, request.username.s)}))
  }

  /** Workflow engine: start an execution of the onboarding state machine. */
  function StartWorkflow(w: World, faults: Faults, input: Item): (r: Step<()>)
    ensures r.result.Ok? <==> StartExecutionCall !in faults.failing
    ensures r.result.Err? ==> r.world == w.(trace := w.trace + [StartExecution(input)])
    ensures r.result.Ok? ==>
      r.world == w.(executions := w.executions + [input], trace := w.trace + [StartExecution(input)])
  {
    var w' := w.(trace := w.trace + [StartExecution(input)]);
    if StartExecutionCall in faults.failing then Step(Err(ServiceError(StartExecutionCall)), w')
    else Step(Ok(()), w'.(executions := w.executions + [input]))
  }
}

=== FILE: onboarding.dfy ===
/** The intake handler: turns an HTTP request into an onboarding record, stores it
    in the onboarding table, starts the onboarding workflow with it and echoes it.
    Nothing in the request is validated. */
module Onboarding {
  import opened Cloud

  const PostMethod := "POST"

  /** The request body as JSON.parse sees it: an object; another JSON value
      (number, string, boolean, array), from which every property reads as
      undefined; null, from which reading a property throws; or text that is not
      JSON at all. */
  datatype Body = Object(fields: map<string, Value>) | OtherJson | JsonNull | NotJson

  datatype Event = Event(httpMethod: string, body: Body)

  /** The success response; the body is the serialised record. */
  datatype Reply = Reply(statusCode: int, body: Item)

  /** The record built from the request, `None` when the method is not POST (the
      variable stays undefined), an error when parsing the body throws. */
  function NewItem(event: Event): (r: Result<Option<Item>>)
    ensures r.Ok? && r.value.Some? ==>
      && event.httpMethod == PostMethod
      && r.value.value.Keys == {TenantField, UserField, TierField}
      && forall f :: f in r.value.value ==> r.value.value[f] == (if event.body.Object? then Get(event.body.fields, f) else Undefined)
    ensures r.Ok? && r.value.None? <==> event.httpMethod != PostMethod
    ensures r.Err? <==> event.httpMethod == PostMethod && (event.body.JsonNull? || event.body.NotJson?)
  {
    if event.httpMethod != PostMethod then Ok(None)
    else
      match event.body
      case NotJson => Err(SyntaxError)
      case JsonNull => Err(TypeError)
      case OtherJson =>
        Ok(Some(map[TenantField := Undefined, UserField := Undefined, TierField := Undefined]))
      case Object(fields) =>
        Ok(Some(map[TenantField := Get(fields, TenantField),
                    UserField := Get(fields, UserField),
                    TierField := Get(fields, TierField)]))
  }

  /** Write the record to the onboarding table: an undefined record is refused; on
      success the serialised record sits under its key; the user-management table
      is never touched. */
  function PutDataToDynamoDB(w: World, faults: Faults, item: Option<Item>): (r: Step<()>)
    ensures item.None? ==> r.result == Err(ValidationError(PutCall))
    ensures r.result.Ok? <==> item.Some? && KeyOf(Strip(item.value)).Some? && PutCall !in faults.failing
    ensures r.result.Ok? ==> r.world.onboardingTable == w.onboardingTable[KeyOf(Strip(item.value)).value := Strip(item.value)]
    ensures r.result.Err? ==> r.world.onboardingTable == w.onboardingTable
    ensures r.world.userTable == w.userTable && r.world.executions == w.executions
  {
    PutItem(w, faults, OnboardingTable, item)
  }

  /** The intake handler, run once on `event` against world `w`. The record is
      stored, then the workflow is started with the same record, then the record is
      echoed with status 200; the first failure is rethrown. */
  function Handle(w: World, faults: Faults, event: Event): (r: Step<Reply>)
    ensures Grows(w, r.world)
    ensures r.world.userTable == w.userTable && r.world.pools == w.pools && r.world.admitted == w.admitted
    ensures r.result.Ok? ==>
      && event.httpMethod == PostMethod
      && event.body.Object?
      && r.result.value.statusCode == 200
      && |r.world.executions| == |w.executions| + 1
      && r.result.value.body == r.world.executions[|w.executions|]
  {
    var item := NewItem(event);
    if item.Err? then Step(Err(item.error), w)
    else
      var put := PutDataToDynamoDB(w, faults, item.value);
      if put.result.Err? then Step(Err(put.result.error), put.world)
      else
        var record := Strip(item.value.value);  // JSON.stringify drops undefined fields
        var start := StartWorkflow(put.world, faults, record);
        if start.result.Err? then Step(Err(start.result.error), start.world)
        else Step(Ok(Reply(200, record)), start.world)
  }
}

=== FILE: onboarding_properties.dfy ===
/** What one run of the intake handler does: which record it builds, the order of
    its two calls, and what each failure leaves behind. */
module OnboardingProperties {
  import opened Cloud
  import opened Onboarding

  /** The record as stored and echoed for a POST body object: its tenantId, userId
      and tier, each kept when the body defines it. */
  function IntakeRecord(fields: map<string, Value>): (record: Item)
    ensures forall f :: f in record <==> (f == TenantField || f == UserField || f == TierField) && Get(fields, f) != Undefined
    ensures forall f :: f in record ==> f in fields && record[f] == fields[f]
  {
    Strip(map[TenantField := Get(fields, TenantField),
              UserField := Get(fields, UserField),
              TierField := Get(fields, TierField)])
  }

  /** Exactly the three fields are copied from the body; every other body field is
      dropped. */
  lemma RecordCopiesThreeFields(fields: map<string, Value>, f: string)
    requires f in fields && fields[f] != Undefined
    ensures f in IntakeRecord(fields) <==> f == TenantField || f == UserField || f == TierField
    ensures f in IntakeRecord(fields) ==> IntakeRecord(fields)[f] == fields[f]
  {
  }

  /** A POST with an object body succeeds exactly when the record's key fields are
      non-empty strings and neither call fails; the record is then stored, the
      workflow is started with that same record after the write, and the record is
      echoed with status 200. */
  lemma IntakeStoresThenStarts(w: World, faults: Faults, fields: map<string, Value>, r: Step<Reply>)
    requires r == Handle(w, faults, Event(PostMethod, Object(fields)))
    ensures r.result.Ok? <==>
      KeyOf(IntakeRecord(fields)).Some? && PutCall !in faults.failing && StartExecutionCall !in faults.failing
    ensures r.result.Ok? ==>
      && r.result.value == Reply(200, IntakeRecord(fields))
      && r.world.onboardingTable == w.onboardingTable[KeyOf(IntakeRecord(fields)).value := IntakeRecord(fields)]
      && r.world.executions == w.executions + [IntakeRecord(fields)]
      && r.world.trace == w.trace + [Put(OnboardingTable, NewItem(Event(PostMethod, Object(fields))).value),
                                     StartExecution(IntakeRecord(fields))]
  {
    var item := NewItem(Event(PostMethod, Object(fields))).value.value;
    assert Strip(item) == IntakeRecord(fields);
  }

  /** A record is built only for POST; any other method hands the store an
      undefined item, which it refuses, so nothing is stored or started. */
  lemma NonPostStoresNothing(w: World, faults: Faults, event: Event, r: Step<Reply>)
    requires event.httpMethod != PostMethod
    requires r == Handle(w, faults, event)
    ensures r.result == Err(ValidationError(PutCall))
    ensures r.world == w.(trace := w.trace + [Put(OnboardingTable, None)])
  {
  }

  /** A body that does not parse, or parses to null, throws before any call. */
  lemma UnreadableBodyThrowsFirst(w: World, faults: Faults, event: Event, r: Step<Reply>)
    requires event.httpMethod == PostMethod && (event.body.NotJson? || event.body.JsonNull?)
    requires r == Handle(w, faults, event)
    ensures r.result == Err(if event.body.NotJson? then SyntaxError else TypeError)
    ensures r.world == w
  {
  }

  /** The workflow is never started unless the write succeeded, a failed write is
      rethrown unchanged, and the call sequence of a run is: nothing, the write
      alone, or the write then the start with the record written. */
  lemma StartOnlyAfterWrite(w: World, faults: Faults, event: Event, r: Step<Reply>)
    requires r == Handle(w, faults, event)
    ensures NewItem(event).Ok? && PutDataToDynamoDB(w, faults, NewItem(event).value).result.Err? ==>
      && r.result == Err(PutDataToDynamoDB(w, faults, NewItem(event).value).result.error)
      && r.world.executions == w.executions && r.world.onboardingTable == w.onboardingTable
    ensures || r.world.trace == w.trace
            || (NewItem(event).Ok? && r.world.trace == w.trace + [Put(OnboardingTable, NewItem(event).value)])
            || (&& NewItem(event).Ok? && NewItem(event).value.Some?
                && r.world.trace == w.trace + [Put(OnboardingTable, NewItem(event).value),
                                               StartExecution(Strip(NewItem(event).value.value))]
                && KeyOf(Strip(NewItem(event).value.value)).Some?
                && r.world.onboardingTable[KeyOf(Strip(NewItem(event).value.value)).value] == Strip(NewItem(event).value.value))
  {
  }

  /** When the start fails after the write, the error is rethrown and the stored
      record stays without a workflow. */
  lemma StartFailureKeepsRecord(w: World, faults: Faults, fields: map<string, Value>, r: Step<Reply>)
    requires KeyOf(IntakeRecord(fields)).Some? && PutCall !in faults.failing
    requires StartExecutionCall in faults.failing
    requires r == Handle(w, faults, Event(PostMethod, Object(fields)))
    ensures r.result == Err(ServiceError(StartExecutionCall))
    ensures r.world.onboardingTable == w.onboardingTable[KeyOf(IntakeRecord(fields)).value := IntakeRecord(fields)]
    ensures r.world.executions == w.executions
  {
    var item := NewItem(Event(PostMethod, Object(fields))).value.value;
    assert Strip(item) == IntakeRecord(fields);
  }
}

=== FILE: user_management.dfy ===
/** The user-provisioning handler: given an onboarding record, decide which user
    pool the user joins — the shared free-tier pool, the tenant's existing records,
    or a freshly created tenant pool — and write the finalised record. */
module UserManagement {
  import opened Cloud

  const FreeTier := "free"
  const ProTier := "pro"
  const BusinessTier := "business"

  const TemporaryPassword := "TempPassword123!"
  const SuppressMessage := "SUPPRESS"
  const NameAttribute := "name"
  const TenantAttribute := "custom:tenantId"
  const PoolSuffix := "UserPool"

  /** The handler's three result shapes: the tenant's records (paid tiers) or a
      status object (free tier, unknown tier). */
  datatype Response = Records(items: set<Item>) | Status(statusCode: int, body: string)

  const Added := Status(200, "Successful Added")

  predicate IsPaidTier(tier: Value) {
    tier == Str(ProTier) || tier == Str(BusinessTier)
  }

  /** The value of the first attribute with the given name, `undefined` if none. */
  function AttributeValue(attributes: seq<Attribute>, name: string): Value {
    if attributes == [] then Undefined
    else if attributes[0].name == name then attributes[0].value
    else AttributeValue(attributes[1..], name)
  }

  /** A create-user request that puts `userId` of `tenantId` into pool `poolId`:
      the username and the `name` attribute are the user id, the tenant attribute
      is the tenant id, the welcome message is suppressed and the fixed temporary
      password is set. */
  predicate AdmitsUser(request: CreateUserRequest, poolId: string, userId: Value, tenantId: Value) {
    && request.userPoolId == poolId
    && request.username == userId
    && AttributeValue(request.attributes, NameAttribute) == userId
    && AttributeValue(request.attributes, TenantAttribute) == tenantId
    && request.temporaryPassword == TemporaryPassword
    && request.messageAction == SuppressMessage
  }

  /** The request built by the free-tier admission helper; the pool is the shared
      pool taken from the environment. */
  function FreeTierRequest(sharedPoolId: string, userId: Value, tenantId: Value): (r: CreateUserRequest)
    ensures AdmitsUser(r, sharedPoolId, userId, tenantId)
    ensures |r.attributes| == 2
    ensures r.attributes[0].name == NameAttribute && r.attributes[1].name == TenantAttribute
    ensures WellFormedCreateUser(r) <==> userId.Str? && userId.s != "" && AcceptableAttributeValue(tenantId)
  {
    var attributes := [Attribute(NameAttribute, userId), Attribute(TenantAttribute, tenantId)];
    assert attributes[0].value == userId && attributes[1].value == tenantId;
    CreateUserRequest(sharedPoolId, userId, TemporaryPassword, attributes, SuppressMessage)
  }

  /** The request built by the tenant-pool admission helper. */
  function UserPoolRequest(userId: Value, tenantId: Value, userPoolId: string): (r: CreateUserRequest)
    ensures AdmitsUser(r, userPoolId, userId, tenantId)
    ensures |r.attributes| == 2
    ensures r.attributes[0].name == NameAttribute && r.attributes[1].name == TenantAttribute
    ensures WellFormedCreateUser(r) <==> userId.Str? && userId.s != "" && AcceptableAttributeValue(tenantId)
  {
    var attributes := [Attribute(NameAttribute, userId), Attribute(TenantAttribute, tenantId)];
    assert attributes[0].value == userId && attributes[1].value == tenantId;
    CreateUserRequest(userPoolId, userId, TemporaryPassword, attributes, SuppressMessage)
  }

  /** The two admission helpers build the same request; only the pool differs. */
  lemma AdmissionRequestsDifferOnlyInPool(userId: Value, tenantId: Value, p: string, q: string)
    ensures FreeTierRequest(p, userId, tenantId) == UserPoolRequest(userId, tenantId, p)
    ensures UserPoolRequest(userId, tenantId, p).(userPoolId := q) == UserPoolRequest(userId, tenantId, q)
  {
  }

  /** Admit a user into the shared free-tier pool. It succeeds exactly when the
      user id is a non-empty string, the tenant id is a string or absent, the
      service is up and the user is not yet in the shared pool; only that one
      admission is added. */
  function AddUserToFreeTierUserPool(w: World, faults: Faults, sharedPoolId: string, userId: Value, tenantId: Value): (r: Step<()>)
    ensures r.result.Ok? <==>
      && userId.Str? && userId.s != "" && AcceptableAttributeValue(tenantId)
      && CreateUserCall !in faults.failing
      && Admission(sharedPoolId, userId.s) !in w.admitted
    ensures r.result.Ok? ==> r.world.admitted == w.admitted + {Admission(sharedPoolId, userId.s)}
    ensures r.result.Err? ==> r.world.admitted == w.admitted
    ensures r.world.userTable == w.userTable && r.world.pools == w.pools
  {
    AdminCreateUser(w, faults, FreeTierRequest(sharedPoolId, userId, tenantId))
  }

  /** Admit a user into a tenant pool, with the same conditions for the given pool. */
  function AddUserToUserPool(w: World, faults: Faults, userId: Value, tenantId: Value, userPoolId: string): (r: Step<()>)
    ensures r.result.Ok? <==>
      && userId.Str? && userId.s != "" && AcceptableAttributeValue(tenantId)
      && CreateUserCall !in faults.failing
      && Admission(userPoolId, userId.s) !in w.admitted
    ensures r.result.Ok? ==> r.world.admitted == w.admitted + {Admission(userPoolId, userId.s)}
    ensures r.result.Err? ==> r.world.admitted == w.admitted
    ensures r.world.userTable == w.userTable && r.world.pools == w.pools
  {
    AdminCreateUser(w, faults, UserPoolRequest(userId, tenantId, userPoolId))
  }

  /** Write a record to the user-management table: on success the serialised
      record sits under its key; the onboarding table is never touched. */
  function PutDataToDynamoDB(w: World, faults: Faults, item: Item): (r: Step<()>)
    ensures r.result.Ok? <==> KeyOf(Strip(item)).Some? && PutCall !in faults.failing
    ensures r.result.Ok? ==> r.world.userTable == w.userTable[KeyOf(Strip(item)).value := Strip(item)]
    ensures r.result.Err? ==> r.world.userTable == w.userTable
    ensures r.world.onboardingTable == w.onboardingTable && r.world.pools == w.pools && r.world.admitted == w.admitted
  {
    PutItem(w, faults, UserManagementTable, Some(item))
  }

  /** Name of a tenant pool: tenant id, tier and "UserPool" concatenated as written,
      with no change of case. */
  function PoolName(tenantId: string, tier: string): (name: string)
    ensures |name| == |tenantId| + |tier| + |PoolSuffix|
    ensures name[..|tenantId|] == tenantId
    ensures name[|tenantId|..|tenantId| + |tier|] == tier
    ensures name[|tenantId| + |tier|..] == PoolSuffix
  {
    tenantId + tier + PoolSuffix
  }

  /** For the paid tiers the pool name determines tenant and tier: two distinct
      (tenant, paid tier) pairs never share a pool name. */
  lemma PoolNameInjective(t1: string, tier1: string, t2: string, tier2: string)
    requires IsPaidTier(Str(tier1)) && IsPaidTier(Str(tier2))
    requires PoolName(t1, tier1) == PoolName(t2, tier2)
    ensures t1 == t2 && tier1 == tier2
  {
    var n := PoolName(t1, tier1);
    // the eleventh character from the end is the third from the end of the tier:
    // 'p' for "pro", 'e' for "business"
    var k := |n| - 11;
    assert n[k] == (t1 + tier1 + PoolSuffix)[|t1| + |tier1| - 3] == tier1[|tier1| - 3];
    assert n[k] == (t2 + tier2 + PoolSuffix)[|t2| + |tier2| - 3] == tier2[|tier2| - 3];
    assert tier1 == tier2;
    assert n[..|t1|] == t1;
    assert n[..|t2|] == t2;
  }

  /** Create the pool of a tenant and tier: on success exactly one pool, named
      after them, is appended and its id returned; a failure creates nothing. */
  function CreateUserPool(w: World, faults: Faults, tenantId: string, tier: string): (r: Step<string>)
    ensures r.result.Ok? ==> r.world.pools == w.pools + [Pool(PoolName(tenantId, tier), r.result.value)]
    ensures r.result.Err? ==> r.world.pools == w.pools
    ensures r.world.userTable == w.userTable && r.world.admitted == w.admitted
  {
    CreatePoolNamed(w, faults, PoolName(tenantId, tier))
  }

  /** The provisioning handler, run once on `event` against world `w`. */
  function Handle(w: World, faults: Faults, sharedPoolId: string, event: Item): (r: Step<Response>)
    ensures Grows(w, r.world)
    ensures r.world.onboardingTable == w.onboardingTable && r.world.executions == w.executions
    ensures Get(event, TierField) != Str(FreeTier) && !IsPaidTier(Get(event, TierField)) ==>
      r == Step(Ok(Added), w)
    ensures r.result.Ok? && Get(event, TierField) == Str(FreeTier) ==> r.result.value == Added
    ensures r.result.Ok? && IsPaidTier(Get(event, TierField)) ==> r.result.value.Records?
  {
    var tier := Get(event, TierField);
    var userId := Get(event, UserField);
    var tenantId := Get(event, TenantField);
    if tier == Str(FreeTier) then
      var admit := AddUserToFreeTierUserPool(w, faults, sharedPoolId, userId, tenantId);
      if admit.result.Err? then Step(Err(admit.result.error), admit.world)
      else
        var put := PutDataToDynamoDB(admit.world, faults, event[PoolIdField := Str(sharedPoolId)]);
        if put.result.Err? then Step(Err(put.result.error), put.world)
        else Step(Ok(Added), put.world)
    else if IsPaidTier(tier) then
      var query := QueryTenant(w, faults, UserManagementTable, tenantId);
      if query.result.Err? then Step(Err(query.result.error), query.world)
      else if |query.result.value| > 0 then Step(Ok(Records(query.result.value)), query.world)
      else
        var create := CreateUserPool(query.world, faults, tenantId.s, tier.s);
        if create.result.Err? then Step(Err(create.result.error), create.world)
        else
          var poolId := create.result.value;
          var put := PutDataToDynamoDB(create.world, faults, event[PoolIdField := Str(poolId)]);
          if put.result.Err? then Step(Err(put.result.error), put.world)
          else
            // not awaited: its outcome never reaches the handler's result
            var admit := AddUserToUserPool(put.world, faults, userId, tenantId, poolId);
            Step(Ok(Records({})), admit.world)
    else
      Step(Ok(Added), w)
  }
}

=== FILE: user_management_properties.dfy ===
/** What one run of the provisioning handler does to the world, branch by branch,
    the invariants it keeps, and what sequential runs can and cannot do. */
module UserManagementProperties {
  import opened Cloud
  import opened UserManagement

  /** The finalised record: the event with its userPoolId set, as stored. */
  function Finalised(event: Item, poolId: string): (record: Item)
    ensures PoolIdField in record && record[PoolIdField] == Str(poolId)
    ensures forall f :: f in event && f != PoolIdField && event[f] != Undefined ==> f in record && record[f] == event[f]
    ensures forall f :: f in record ==> f == PoolIdField || (f in event && event[f] != Undefined)
  {
    Strip(event[PoolIdField := Str(poolId)])
  }

  // ---------------------------------------------------------------- free tier

  /** Free tier: the user is admitted into the shared pool first, then exactly one
      record (the event plus the shared pool id) is written. No pool is created and
      no query is issued. */
  lemma FreeTierAdmitsThenRecords(w: World, faults: Faults, sharedPoolId: string, event: Item, r: Step<Response>)
    requires Get(event, TierField) == Str(FreeTier)
    requires r == Handle(w, faults, sharedPoolId, event)
    ensures r.result.Ok? <==>
      && Get(event, UserField).Str?
      && CreateUserCall !in faults.failing
      && Admission(sharedPoolId, Get(event, UserField).s) !in w.admitted
      && KeyOf(Finalised(event, sharedPoolId)).Some?
      && PutCall !in faults.failing
    ensures r.result.Ok? ==>
      && r.result.value == Added
      && r.world == w.(
           userTable := w.userTable[KeyOf(Finalised(event, sharedPoolId)).value := Finalised(event, sharedPoolId)],
           admitted := w.admitted + {Admission(sharedPoolId, Get(event, UserField).s)},
           trace := w.trace + [CreateUser(FreeTierRequest(sharedPoolId, Get(event, UserField), Get(event, TenantField))),
                               Put(UserManagementTable, Some(event[PoolIdField := Str(sharedPoolId)]))])
  {
  }

  /** Free tier: a refused admission is rethrown before anything is written. */
  lemma FreeTierAdmissionFailureWritesNothing(w: World, faults: Faults, sharedPoolId: string, event: Item, r: Step<Response>)
    requires Get(event, TierField) == Str(FreeTier)
    requires AdminCreateUser(w, faults, FreeTierRequest(sharedPoolId, Get(event, UserField), Get(event, TenantField))).result.Err?
    requires r == Handle(w, faults, sharedPoolId, event)
    ensures r.result.Err?
    ensures r.result.error == AdminCreateUser(w, faults, FreeTierRequest(sharedPoolId, Get(event, UserField), Get(event, TenantField))).result.error
    ensures r.world == w.(trace := w.trace + [CreateUser(FreeTierRequest(sharedPoolId, Get(event, UserField), Get(event, TenantField)))])
  {
  }

  /** Free tier: when the write fails after the admission, the user stays in the
      shared pool with no record (nothing is undone) and the error is rethrown. */
  lemma FreeTierWriteFailureKeepsAdmission(w: World, faults: Faults, sharedPoolId: string, event: Item, r: Step<Response>)
    requires Get(event, TierField) == Str(FreeTier)
    requires AdminCreateUser(w, faults, FreeTierRequest(sharedPoolId, Get(event, UserField), Get(event, TenantField))).result.Ok?
    requires PutCall in faults.failing || KeyOf(Finalised(event, sharedPoolId)).None?
    requires r == Handle(w, faults, sharedPoolId, event)
    ensures r.result == Err(if KeyOf(Finalised(event, sharedPoolId)).None? then ValidationError(PutCall) else ServiceError(PutCall))
    ensures r.world.userTable == w.userTable
    ensures Admission(sharedPoolId, Get(event, UserField).s) in r.world.admitted - w.admitted
  {
  }

  /** Free tier is not idempotent: re-running a request that succeeded asks the
      shared pool for the same username again, which is refused, so the rerun
      throws and writes nothing. */
  lemma FreeTierRerunThrows(w: World, faults: Faults, faults': Faults, sharedPoolId: string, event: Item)
    requires Get(event, TierField) == Str(FreeTier)
    requires Handle(w, faults, sharedPoolId, event).result.Ok?
    ensures var w' := Handle(w, faults, sharedPoolId, event).world;
            var again := Handle(w', faults', sharedPoolId, event);
            && again.result.Err?
            && (CreateUserCall !in faults'.failing ==> again.result.error == UsernameExists)
            && again.world.userTable == w'.userTable
  {
    var r := Handle(w, faults, sharedPoolId, event);
    FreeTierAdmitsThenRecords(w, faults, sharedPoolId, event, r);
    FreeTierAdmissionFailureWritesNothing(r.world, faults', sharedPoolId, event, Handle(r.world, faults', sharedPoolId, event));
  }

  // --------------------------------------------------------------- paid tiers

  /** Paid tier, tenant already known: the query filters on the tenant only, so any
      record of the tenant — any tier, any user — makes the handler return exactly
      those records and change nothing but the trace: no pool, no write, no
      admission. */
  lemma PaidTierExistingTenantReturnsRecords(w: World, faults: Faults, sharedPoolId: string, event: Item, r: Step<Response>)
    requires IsPaidTier(Get(event, TierField))
    requires Get(event, TenantField).Str? && Get(event, TenantField).s != ""
    requires TenantRecords(w.userTable, Get(event, TenantField).s) != {}
    requires QueryCall !in faults.failing
    requires r == Handle(w, faults, sharedPoolId, event)
    ensures r.result == Ok(Records(TenantRecords(w.userTable, Get(event, TenantField).s)))
    ensures r.world == w.(trace := w.trace + [Query(UserManagementTable, Get(event, TenantField))])
  {
    assert |TenantRecords(w.userTable, Get(event, TenantField).s)| > 0;
  }

  /** Paid tier: a failed query (a store failure, or a tenant id that is not a
      non-empty string) is rethrown; nothing but the query happened. */
  lemma PaidTierQueryFailureChangesNothing(w: World, faults: Faults, sharedPoolId: string, event: Item, r: Step<Response>)
    requires IsPaidTier(Get(event, TierField))
    requires QueryCall in faults.failing || !Get(event, TenantField).Str? || Get(event, TenantField).s == ""
    requires r == Handle(w, faults, sharedPoolId, event)
    ensures r.result == Err(if Get(event, TenantField).Str? && Get(event, TenantField).s != ""
                            then ServiceError(QueryCall) else ValidationError(QueryCall))
    ensures r.world == w.(trace := w.trace + [Query(UserManagementTable, Get(event, TenantField))])
  {
  }

  /** Paid tier, tenant unknown: exactly one pool is created, named tenant + tier +
      "UserPool"; one record (event plus the new pool id) is written; the result is
      the empty list. The admission into the new pool is fired last and its outcome
      does not reach the result. */
  lemma PaidTierNewTenantCreatesPool(w: World, faults: Faults, sharedPoolId: string, event: Item, r: Step<Response>)
    requires IsPaidTier(Get(event, TierField))
    requires Get(event, TenantField).Str? && Get(event, TenantField).s != ""
    requires TenantRecords(w.userTable, Get(event, TenantField).s) == {}
    requires QueryCall !in faults.failing && CreatePoolCall !in faults.failing && PutCall !in faults.failing
    requires KeyOf(Finalised(event, faults.assignedPoolId)).Some?
    requires r == Handle(w, faults, sharedPoolId, event)
    ensures r.result == Ok(Records({}))
    ensures r.world.pools == w.pools + [Pool(PoolName(Get(event, TenantField).s, Get(event, TierField).s), faults.assignedPoolId)]
    ensures r.world.userTable ==
      w.userTable[KeyOf(Finalised(event, faults.assignedPoolId)).value := Finalised(event, faults.assignedPoolId)]
    ensures r.world.admitted - w.admitted <= {Admission(faults.assignedPoolId, Get(event, UserField).s)}
    ensures r.world.trace == w.trace + [
      Query(UserManagementTable, Get(event, TenantField)),
      CreatePool(PoolName(Get(event, TenantField).s, Get(event, TierField).s)),
      Put(UserManagementTable, Some(event[PoolIdField := Str(faults.assignedPoolId)])),
      CreateUser(UserPoolRequest(Get(event, UserField), Get(event, TenantField), faults.assignedPoolId))]
  {
  }

  /** Paid tier, tenant unknown, pool creation fails: the error is rethrown and
      nothing is written. */
  lemma PaidTierCreateFailureWritesNothing(w: World, faults: Faults, sharedPoolId: string, event: Item, r: Step<Response>)
    requires IsPaidTier(Get(event, TierField))
    requires Get(event, TenantField).Str? && Get(event, TenantField).s != ""
    requires TenantRecords(w.userTable, Get(event, TenantField).s) == {}
    requires QueryCall !in faults.failing && CreatePoolCall in faults.failing
    requires r == Handle(w, faults, sharedPoolId, event)
    ensures r.result == Err(ServiceError(CreatePoolCall))
    ensures r.world.userTable == w.userTable && r.world.pools == w.pools && r.world.admitted == w.admitted
  {
  }

  /** Paid tier, tenant unknown, the write fails after the pool was created (the
      store is down, or the finalised record has no valid key): the error is
      rethrown and the new pool stays behind with no record naming it. */
  lemma PaidTierWriteFailureOrphansPool(w: World, faults: Faults, sharedPoolId: string, event: Item, r: Step<Response>)
    requires IsPaidTier(Get(event, TierField))
    requires Get(event, TenantField).Str? && Get(event, TenantField).s != ""
    requires TenantRecords(w.userTable, Get(event, TenantField).s) == {}
    requires QueryCall !in faults.failing && CreatePoolCall !in faults.failing
    requires PutCall in faults.failing || KeyOf(Finalised(event, faults.assignedPoolId)).None?
    requires r == Handle(w, faults, sharedPoolId, event)
    ensures r.result == Err(if KeyOf(Finalised(event, faults.assignedPoolId)).None? then ValidationError(PutCall) else ServiceError(PutCall))
    ensures r.world.pools == w.pools + [Pool(PoolName(Get(event, TenantField).s, Get(event, TierField).s), faults.assignedPoolId)]
    ensures r.world.userTable == w.userTable && r.world.admitted == w.admitted
  {
  }

  /** An orphaned pool is never reused: the tenant still has no record, so
      re-running the same request creates a second pool under the same name. */
  lemma OrphanedPoolNotReused(w: World, faults: Faults, faults': Faults, sharedPoolId: string, event: Item)
    requires IsPaidTier(Get(event, TierField))
    requires Get(event, TenantField).Str? && Get(event, TenantField).s != ""
    requires TenantRecords(w.userTable, Get(event, TenantField).s) == {}
    requires QueryCall !in faults.failing && CreatePoolCall !in faults.failing
    requires PutCall in faults.failing || KeyOf(Finalised(event, faults.assignedPoolId)).None?
    requires QueryCall !in faults'.failing && CreatePoolCall !in faults'.failing
    ensures var w' := Handle(w, faults, sharedPoolId, event).world;
            var again := Handle(w', faults', sharedPoolId, event).world;
            var name := PoolName(Get(event, TenantField).s, Get(event, TierField).s);
            again.pools == w.pools + [Pool(name, faults.assignedPoolId), Pool(name, faults'.assignedPoolId)]
  {
    var r := Handle(w, faults, sharedPoolId, event);
    PaidTierWriteFailureOrphansPool(w, faults, sharedPoolId, event, r);
    assert TenantRecords(r.world.userTable, Get(event, TenantField).s) == {};
    var again := Handle(r.world, faults', sharedPoolId, event);
    var name := PoolName(Get(event, TenantField).s, Get(event, TierField).s);
    assert again.world.pools == r.world.pools + [Pool(name, faults'.assignedPoolId)];
  }

  // --------------------------------------------------------------- invariants

  /** A finalised record names the pool the tier decision chose for it: the shared
      pool for the free tier, for a paid tier a pool of the world whose name is the
      record's tenant and tier. */
  predicate Provisioned(record: Item, sharedPoolId: string, pools: seq<Pool>) {
    var tier := Get(record, TierField);
    var poolId := Get(record, PoolIdField);
    || (tier == Str(FreeTier) && poolId == Str(sharedPoolId))
    || (&& IsPaidTier(tier)
        && Get(record, TenantField).Str?
        && poolId.Str?
        && Pool(PoolName(Get(record, TenantField).s, tier.s), poolId.s) in pools)
  }

  ghost predicate AllProvisioned(store: Store, sharedPoolId: string, pools: seq<Pool>) {
    forall k :: k in store ==> Provisioned(store[k], sharedPoolId, pools)
  }

  lemma ProvisionedStable(record: Item, sharedPoolId: string, pools: seq<Pool>, pools': seq<Pool>)
    requires Provisioned(record, sharedPoolId, pools)
    requires pools <= pools'
    ensures Provisioned(record, sharedPoolId, pools')
  {
    var tier := Get(record, TierField);
    if IsPaidTier(tier) {
      var p := Pool(PoolName(Get(record, TenantField).s, tier.s), Get(record, PoolIdField).s);
      var i :| 0 <= i < |pools| && pools[i] == p;
      assert pools'[i] == p;
    }
  }

  /** A run writes at most one record, the event finalised with the pool id the
      tier decision chose; `written` is that pool id, if any. */
  lemma HandleWritesOneRecord(w: World, faults: Faults, sharedPoolId: string, event: Item, r: Step<Response>)
    returns (written: Option<string>)
    requires r == Handle(w, faults, sharedPoolId, event)
    ensures written.None? ==> r.world.userTable == w.userTable
    ensures written.Some? ==>
      && KeyOf(Finalised(event, written.value)).Some?
      && r.world.userTable == w.userTable[KeyOf(Finalised(event, written.value)).value := Finalised(event, written.value)]
      && Provisioned(Finalised(event, written.value), sharedPoolId, r.world.pools)
  {
    var tier := Get(event, TierField);
    var tenantId := Get(event, TenantField);
    written := None;
    if tier == Str(FreeTier) {
      var record := Finalised(event, sharedPoolId);
      assert Get(record, TierField) == tier;
      if r.world.userTable != w.userTable {
        written := Some(sharedPoolId);
      }
    } else if IsPaidTier(tier) {
      var query := QueryTenant(w, faults, UserManagementTable, tenantId);
      if query.result.Ok? && |query.result.value| == 0 && CreatePoolCall !in faults.failing {
        var record := Finalised(event, faults.assignedPoolId);
        assert Get(record, TierField) == tier && Get(record, TenantField) == tenantId;
        assert Pool(PoolName(tenantId.s, tier.s), faults.assignedPoolId) in r.world.pools;
        if r.world.userTable != w.userTable {
          written := Some(faults.assignedPoolId);
        }
      }
    }
  }

  /** Every record the handler writes is provisioned, and records already in the
      table stay provisioned: the table keeps the invariant whatever the faults. */
  lemma HandleKeepsRecordsProvisioned(w: World, faults: Faults, sharedPoolId: string, event: Item, r: Step<Response>)
    requires AllProvisioned(w.userTable, sharedPoolId, w.pools)
    requires r == Handle(w, faults, sharedPoolId, event)
    ensures AllProvisioned(r.world.userTable, sharedPoolId, r.world.pools)
  {
    var written := HandleWritesOneRecord(w, faults, sharedPoolId, event, r);
    forall k | k in r.world.userTable
      ensures Provisioned(r.world.userTable[k], sharedPoolId, r.world.pools)
    {
      if written.None? || k != KeyOf(Finalised(event, written.value)).value {
        ProvisionedStable(w.userTable[k], sharedPoolId, w.pools, r.world.pools);
      }
    }
  }

  /** Every stored record sits under its own key and holds no undefined field. */
  lemma HandleKeepsTableConsistent(w: World, faults: Faults, sharedPoolId: string, event: Item, r: Step<Response>)
    requires Consistent(w.userTable)
    requires r == Handle(w, faults, sharedPoolId, event)
    ensures Consistent(r.world.userTable)
  {
  }

  // --------------------------------------------------------- sequential runs

  datatype Run = Run(faults: Faults, event: Item)

  /** The world after the given runs of the handler, one after another. */
  function RunAll(w: World, sharedPoolId: string, runs: seq<Run>): (w': World)
    ensures Grows(w, w')
    decreases |runs|
  {
    if runs == [] then w
    else RunAll(Handle(w, runs[0].faults, sharedPoolId, runs[0].event).world, sharedPoolId, runs[1..])
  }

  /** A successful run for tenant t leaves at least one record of t in the table,
      whatever the tier. */
  lemma SuccessfulRunRegistersTenant(w: World, faults: Faults, sharedPoolId: string, event: Item, t: string, r: Step<Response>)
    requires Get(event, TierField) == Str(FreeTier) || IsPaidTier(Get(event, TierField))
    requires Get(event, TenantField) == Str(t)
    requires r == Handle(w, faults, sharedPoolId, event)
    requires r.result.Ok?
    ensures TenantRecords(r.world.userTable, t) != {}
  {
    if Get(event, TierField) == Str(FreeTier) {
      var k := KeyOf(Finalised(event, sharedPoolId)).value;
      assert k.tenantId == t && k in r.world.userTable;
    } else if |TenantRecords(w.userTable, t)| == 0 {
      var k := KeyOf(Finalised(event, faults.assignedPoolId)).value;
      assert k.tenantId == t && k in r.world.userTable;
    }
  }

  lemma TenantRecordsGrow(store: Store, store': Store, t: string)
    requires TenantRecords(store, t) != {}
    requires store.Keys <= store'.Keys
    ensures TenantRecords(store', t) != {}
  {
    var i :| i in TenantRecords(store, t);
    var k :| k in store && k.tenantId == t && store[k] == i;
    assert store'[k] in TenantRecords(store', t);
  }

  /** Once a tenant has a record, it keeps one through any later runs. */
  lemma {:induction false} TenantStaysRegistered(w: World, sharedPoolId: string, runs: seq<Run>, t: string)
    requires TenantRecords(w.userTable, t) != {}
    ensures TenantRecords(RunAll(w, sharedPoolId, runs).userTable, t) != {}
    decreases |runs|
  {
    if runs != [] {
      var next := Handle(w, runs[0].faults, sharedPoolId, runs[0].event).world;
      TenantRecordsGrow(w.userTable, next.userTable, t);
      TenantStaysRegistered(next, sharedPoolId, runs[1..], t);
    }
  }

  /** A paid-tier run for a tenant that already has a record creates no pool,
      writes nothing and admits nobody, for any user and either paid tier. */
  lemma KnownTenantGetsNoPool(w: World, faults: Faults, sharedPoolId: string, event: Item, r: Step<Response>)
    requires IsPaidTier(Get(event, TierField))
    requires Get(event, TenantField).Str? && TenantRecords(w.userTable, Get(event, TenantField).s) != {}
    requires r == Handle(w, faults, sharedPoolId, event)
    ensures r.world.pools == w.pools && r.world.userTable == w.userTable && r.world.admitted == w.admitted
    ensures r.result.Ok? ==> r.result == Ok(Records(TenantRecords(w.userTable, Get(event, TenantField).s)))
  {
    assert |TenantRecords(w.userTable, Get(event, TenantField).s)| > 0;
  }

  /** Sequential idempotence: after a successful run for tenant t — of any tier —
      and any number of further runs, a paid-tier run for t creates no pool. */
  lemma NoSecondPoolAfterSuccess(
    w: World, first: Run, runs: seq<Run>, faults: Faults, sharedPoolId: string, event: Item, t: string)
    requires Get(first.event, TierField) == Str(FreeTier) || IsPaidTier(Get(first.event, TierField))
    requires Get(first.event, TenantField) == Str(t)
    requires Handle(w, first.faults, sharedPoolId, first.event).result.Ok?
    requires IsPaidTier(Get(event, TierField)) && Get(event, TenantField) == Str(t)
    ensures var before := RunAll(w, sharedPoolId, [first] + runs);
            Handle(before, faults, sharedPoolId, event).world.pools == before.pools
  {
    var after := Handle(w, first.faults, sharedPoolId, first.event);
    SuccessfulRunRegistersTenant(w, first.faults, sharedPoolId, first.event, t, after);
    TenantStaysRegistered(after.world, sharedPoolId, runs, t);
    assert ([first] + runs)[1..] == runs;
    var before := RunAll(w, sharedPoolId, [first] + runs);
    KnownTenantGetsNoPool(before, faults, sharedPoolId, event, Handle(before, faults, sharedPoolId, event));
  }
}

=== FILE: workflow.dfy ===
/** The whole onboarding path: the intake handler stores the record and starts the
    state machine, whose single task runs the provisioning handler on the same
    record. The HTTP caller sees only the intake reply. */
module Workflow {
  import opened Cloud
  import Onboarding
  import UserManagement
  import OnboardingProperties
  import UserManagementProperties

  /** The intake reply, the provisioning result when a workflow was started, and
      the final world. */
  datatype Outcome = Outcome(
    reply: Result<Onboarding.Reply>,
    provisioned: Option<Result<UserManagement.Response>>,
    world: World)

  /** One execution of the state machine: a single task invoking the provisioning
      handler with the execution input as its event. */
  function Execute(w: World, faults: Faults, sharedPoolId: string, input: Item): (r: Step<UserManagement.Response>)
    ensures Grows(w, r.world)
    ensures r.world.onboardingTable == w.onboardingTable && r.world.executions == w.executions
    ensures r.result.Ok? && Get(input, TierField) == Str(UserManagement.FreeTier) ==>
      && KeyOf(Strip(input[PoolIdField := Str(sharedPoolId)])).Some?
      && r.world.userTable.Keys == w.userTable.Keys + {KeyOf(Strip(input[PoolIdField := Str(sharedPoolId)])).value}
  {
    UserManagement.Handle(w, faults, sharedPoolId, input)
  }

  /** An intake request followed by the execution it started, if any. */
  function Onboard(w: World, intakeFaults: Faults, provisionFaults: Faults, sharedPoolId: string, event: Onboarding.Event): (o: Outcome)
    ensures o.provisioned.Some? <==> o.reply.Ok?
    ensures o.reply.Ok? ==> o.reply.value.statusCode == 200
    ensures Grows(w, o.world)
  {
    var intake := Onboarding.Handle(w, intakeFaults, event);
    if intake.result.Err? then Outcome(intake.result, None, intake.world)
    else
      var input := intake.world.executions[|w.executions|];
      var run := Execute(intake.world, provisionFaults, sharedPoolId, input);
      Outcome(intake.result, Some(run.result), run.world)
  }

  /** Provisioning is decoupled from the caller: its faults never change the
      reply. */
  lemma ReplyIgnoresProvisioning(w: World, intakeFaults: Faults, f1: Faults, f2: Faults, sharedPoolId: string, event: Onboarding.Event)
    ensures Onboard(w, intakeFaults, f1, sharedPoolId, event).reply == Onboard(w, intakeFaults, f2, sharedPoolId, event).reply
  {
  }

  /** A free-tier sign-up with well-formed ids and no failures ends with the
      provisional record in the onboarding table and, in the user-management table,
      the same record finalised with the shared pool id; the user is in the shared
      pool and no pool was created. */
  lemma FreeTierSignUp(w: World, sharedPoolId: string, t: string, u: string, extra: map<string, Value>)
    requires t != "" && u != ""
    requires Admission(sharedPoolId, u) !in w.admitted
    ensures var fields := extra[TenantField := Str(t)][UserField := Str(u)][TierField := Str(UserManagement.FreeTier)];
            var o := Onboard(w, Faults({}, ""), Faults({}, ""), sharedPoolId, Onboarding.Event(Onboarding.PostMethod, Onboarding.Object(fields)));
            && o.reply.Ok?
            && o.provisioned == Some(Ok(UserManagement.Added))
            && o.world.onboardingTable[Key(t, u)] ==
                 map[TenantField := Str(t), UserField := Str(u), TierField := Str(UserManagement.FreeTier)]
            && o.world.userTable[Key(t, u)] ==
                 map[TenantField := Str(t), UserField := Str(u), TierField := Str(UserManagement.FreeTier),
                     PoolIdField := Str(sharedPoolId)]
            && Admission(sharedPoolId, u) in o.world.admitted
            && o.world.pools == w.pools
  {
    var fields := extra[TenantField := Str(t)][UserField := Str(u)][TierField := Str(UserManagement.FreeTier)];
    var event := Onboarding.Event(Onboarding.PostMethod, Onboarding.Object(fields));
    var record := OnboardingProperties.IntakeRecord(fields);
    assert record == map[TenantField := Str(t), UserField := Str(u), TierField := Str(UserManagement.FreeTier)];
    var intake := Onboarding.Handle(w, Faults({}, ""), event);
    OnboardingProperties.IntakeStoresThenStarts(w, Faults({}, ""), fields, intake);
    assert intake.world.executions[|w.executions|] == record;
    var run := UserManagement.Handle(intake.world, Faults({}, ""), sharedPoolId, record);
    UserManagementProperties.FreeTierAdmitsThenRecords(intake.world, Faults({}, ""), sharedPoolId, record, run);
    assert UserManagementProperties.Finalised(record, sharedPoolId) ==
      map[TenantField := Str(t), UserField := Str(u), TierField := Str(UserManagement.FreeTier), PoolIdField := Str(sharedPoolId)];
  }

  /** The record a sign-up request produces. */
  function SignUpRecord(t: string, u: string, tier: string): Item {
    map[TenantField := Str(t), UserField := Str(u), TierField := Str(tier)]
  }

  /** A well-formed sign-up with no intake failure stores its record, starts the
      workflow with it and leaves the user-management side to the execution. */
  lemma SignUpStartsWorkflow(w: World, intakeFaults: Faults, provisionFaults: Faults, sharedPoolId: string, t: string, u: string, tier: string)
    requires t != "" && u != ""
    requires PutCall !in intakeFaults.failing && StartExecutionCall !in intakeFaults.failing
    ensures var intake := Onboarding.Handle(w, intakeFaults, SignUp(t, u, tier));
            var run := Execute(intake.world, provisionFaults, sharedPoolId, SignUpRecord(t, u, tier));
            && intake.result.Ok?
            && intake.world.userTable == w.userTable && intake.world.pools == w.pools
            && intake.world.admitted == w.admitted
            && Onboard(w, intakeFaults, provisionFaults, sharedPoolId, SignUp(t, u, tier))
               == Outcome(intake.result, Some(run.result), run.world)
  {
    var e := SignUp(t, u, tier);
    var record := OnboardingProperties.IntakeRecord(e.body.fields);
    assert record == SignUpRecord(t, u, tier);
    var intake := Onboarding.Handle(w, intakeFaults, e);
    OnboardingProperties.IntakeStoresThenStarts(w, intakeFaults, e.body.fields, intake);
    assert intake.world.executions[|w.executions|] == record;
  }

  /** The first paid sign-up of a tenant creates the pool named tenant + tier +
      "UserPool" and records the user with its id. */
  lemma FirstPaidSignUp(w: World, sharedPoolId: string, poolId: string, t: string, u: string, tier: string)
    requires t != "" && u != ""
    requires UserManagement.IsPaidTier(Str(tier))
    requires TenantRecords(w.userTable, t) == {}
    ensures var o := Onboard(w, Faults({}, ""), Faults({}, poolId), sharedPoolId, SignUp(t, u, tier));
            && o.provisioned == Some(Ok(UserManagement.Records({})))
            && o.world.pools == w.pools + [Pool(UserManagement.PoolName(t, tier), poolId)]
            && o.world.userTable == w.userTable[Key(t, u) := SignUpRecord(t, u, tier)[PoolIdField := Str(poolId)]]
  {
    SignUpStartsWorkflow(w, Faults({}, ""), Faults({}, poolId), sharedPoolId, t, u, tier);
    var intake := Onboarding.Handle(w, Faults({}, ""), SignUp(t, u, tier));
    var record := SignUpRecord(t, u, tier);
    var run := UserManagement.Handle(intake.world, Faults({}, poolId), sharedPoolId, record);
    assert UserManagementProperties.Finalised(record, poolId) == record[PoolIdField := Str(poolId)];
    UserManagementProperties.PaidTierNewTenantCreatesPool(intake.world, Faults({}, poolId), sharedPoolId, record, run);
  }

  /** A later paid sign-up of a tenant with records — another user, either paid
      tier — gets those records back; no pool is created, nothing is written to the
      user-management table and the new user is admitted nowhere. */
  lemma LaterPaidSignUp(w: World, sharedPoolId: string, poolId: string, t: string, u: string, tier: string)
    requires t != "" && u != ""
    requires UserManagement.IsPaidTier(Str(tier))
    requires TenantRecords(w.userTable, t) != {}
    ensures var o := Onboard(w, Faults({}, ""), Faults({}, poolId), sharedPoolId, SignUp(t, u, tier));
            && o.provisioned == Some(Ok(UserManagement.Records(TenantRecords(w.userTable, t))))
            && o.world.pools == w.pools
            && o.world.userTable == w.userTable
            && o.world.admitted == w.admitted
  {
    SignUpStartsWorkflow(w, Faults({}, ""), Faults({}, poolId), sharedPoolId, t, u, tier);
    var intake := Onboarding.Handle(w, Faults({}, ""), SignUp(t, u, tier));
    var record := SignUpRecord(t, u, tier);
    var run := UserManagement.Handle(intake.world, Faults({}, poolId), sharedPoolId, record);
    UserManagementProperties.PaidTierExistingTenantReturnsRecords(intake.world, Faults({}, poolId), sharedPoolId, record, run);
  }

  /** Two sequential paid sign-ups for the same tenant: the second returns the
      first user's record and creates no second pool. */
  lemma TwoPaidSignUps(w: World, sharedPoolId: string, poolId: string, t: string, u1: string, u2: string, tier1: string, tier2: string)
    requires t != "" && u1 != "" && u2 != "" && u1 != u2
    requires UserManagement.IsPaidTier(Str(tier1)) && UserManagement.IsPaidTier(Str(tier2))
    requires TenantRecords(w.userTable, t) == {}
    ensures var first := Onboard(w, Faults({}, ""), Faults({}, poolId), sharedPoolId, SignUp(t, u1, tier1));
            var second := Onboard(first.world, Faults({}, ""), Faults({}, poolId), sharedPoolId, SignUp(t, u2, tier2));
            && first.world.pools == w.pools + [Pool(UserManagement.PoolName(t, tier1), poolId)]
            && second.provisioned == Some(Ok(UserManagement.Records({SignUpRecord(t, u1, tier1)[PoolIdField := Str(poolId)]})))
            && second.world.pools == first.world.pools
            && Key(t, u2) !in second.world.userTable
  {
    FirstPaidSignUp(w, sharedPoolId, poolId, t, u1, tier1);
    var first := Onboard(w, Faults({}, ""), Faults({}, poolId), sharedPoolId, SignUp(t, u1, tier1));
    var finalised := SignUpRecord(t, u1, tier1)[PoolIdField := Str(poolId)];
    assert TenantRecords(first.world.userTable, t) == {finalised} by {
      assert first.world.userTable[Key(t, u1)] == finalised;
      forall i | i in TenantRecords(first.world.userTable, t) ensures i == finalised {
        var k :| k in first.world.userTable && k.tenantId == t && first.world.userTable[k] == i;
        assert k == Key(t, u1);
      }
    }
    LaterPaidSignUp(first.world, sharedPoolId, poolId, t, u2, tier2);
    assert Key(t, u2) !in w.userTable;
  }

  /** A sign-up with a tier the provisioning handler does not know is stored in the
      onboarding table and starts a workflow, whose execution succeeds with the
      status reply and touches nothing: no pool, no admission, no user record. */
  lemma UnknownTierSignUp(w: World, sharedPoolId: string, t: string, u: string, tier: string)
    requires t != "" && u != ""
    requires tier != UserManagement.FreeTier && !UserManagement.IsPaidTier(Str(tier))
    ensures var o := Onboard(w, Faults({}, ""), Faults({}, ""), sharedPoolId, SignUp(t, u, tier));
            && o.reply.Ok?
            && o.provisioned == Some(Ok(UserManagement.Added))
            && o.world.onboardingTable == w.onboardingTable[Key(t, u) := SignUpRecord(t, u, tier)]
            && o.world.userTable == w.userTable && o.world.pools == w.pools && o.world.admitted == w.admitted
  {
    SignUpStartsWorkflow(w, Faults({}, ""), Faults({}, ""), sharedPoolId, t, u, tier);
    var e := SignUp(t, u, tier);
    assert OnboardingProperties.IntakeRecord(e.body.fields) == SignUpRecord(t, u, tier);
    OnboardingProperties.IntakeStoresThenStarts(w, Faults({}, ""), e.body.fields, Onboarding.Handle(w, Faults({}, ""), e));
  }

  /** The sign-up request body `{tenantId, userId, tier}`. */
  function SignUp(t: string, u: string, tier: string): (e: Onboarding.Event)
    ensures e.httpMethod == Onboarding.PostMethod && e.body.Object?
  {
    Onboarding.Event(Onboarding.PostMethod,
      Onboarding.Object(map[TenantField := Str(t), UserField := Str(u), TierField := Str(tier)]))
  }

  /** Pool names keep the tier's case: tenant "acme" on "pro" gets "acmeproUserPool". */
  lemma PoolNameKeepsCase()
    ensures UserManagement.PoolName("acme", UserManagement.ProTier) == "acmeproUserPool"
    ensures UserManagement.PoolName("acme", UserManagement.ProTier) != "acmeProUserPool"
  {
  }
}
